=== FILE: README.md ===
# LaborPortal storage layer, modelled in Dafny

LaborPortal is a small job board. Recruiters post jobs that need a number of
workers, and laborers sign up for them with their name, a ten-digit contact
and a shared passkey. This project models the business rules in the browser
storage layer `public/js/storage.js` as a sequential state machine over the
persisted store: the job list, the current session, the recruiter credential
and the laborer registry. It then proves what the layer promises about it.

- `Text` (`text.dfy`) models JavaScript's `String.prototype.trim` and the
  contact pattern `/^\d{10}$/`.
- `Domain` (`domain.dfy`) holds the records as they are persisted, the reply
  strings, and `Env`. `Env` is the source of fresh ids and of the clock.
- `Applicants` (`applicants.dfy`) models `normalizeApplicants` and the filter
  by contact.
- `Jobs` (`jobs.dfy`) models lookup by id, `addJob` and `deleteJob`.
- `Applying` (`applying.dfy`) models `applyToJobWithDetails`, both as written
  and with its duplicate check corrected, and `unapplyFromJobByContact`.
- `Auth` (`auth.dfy`) models `verifyOrSetupRecruiter`, `loginLabor` and
  `requireRole`.
- `Views` (`views.dfy`) models `getOpenJobs`, `getJobsForRecruiter` and
  `getJobsForLaborer`.
- `Machine` (`machine.dfy`) models every business operation as one `Step`,
  and sequences of them as `Run`, with the invariants the store keeps over
  those operations. A flag chooses whether sign-ups run the duplicate check
  as written or corrected.

Every operation is a pure function from the store to an `Outcome`, which
holds the reply and the store the operation leaves behind.

- A stored record field that is falsy or missing, read through `||`, reads
  as the empty string.
- `a || b` on strings is `Domain.Or`.
- `generateId` and `new Date().toISOString()` become the `Env` parameter.
  `Env` gives the random suffix of the id generated for a list position
  (an applicant's position in its job's list, or 0 for a new job) and the
  time stamp that call sees.
- SHA-256 becomes a parameter `hash` that maps a string to 64 lower-case
  hex digits.

Two behaviours of the code are easy to miss:

- Once a recruiter email is stored, an empty email is refused
  (`public/js/storage.js:77`); `Auth.EmptyEmailRefused` states it.
- The duplicate test of a sign-up compares the contact as given while the
  stored contact is trimmed (`public/js/storage.js:138-139`); see
  "## Findings".

## Model

| member | source | states |
|---|---|---|
| Text.Trim | public/js/storage.js:101 | The result is the infix of the input left after removing JavaScript whitespace at both ends. Only whitespace is removed, and the result neither starts nor ends with whitespace. |
| Text.TrimIdempotent | public/js/storage.js:101 | Trimming a trimmed string changes nothing. |
| Text.TenDigitsAreTrimmed | public/js/storage.js:99-101 | A contact that passes the ten-digit test is its own trimmed form, so the registry key equals the validated text. |
| Text.MatchTenDigits | public/js/storage.js:99 | The scan accepts exactly the strings of ten ASCII digits, which is the language of `/^\d{10}$/`. |
| Applicants.NormalizeOne | public/js/storage.js:24-38 | A normalized record always has an id and a time stamp. It keeps the stored contact and user. Its name is empty only for an empty legacy name. A bare name becomes name and user. A record keeps every non-empty field. A record with no name takes its user, or "Unknown" when that is empty too. A missing time stamp becomes the call's clock reading. Anything else becomes "Unknown". |
| Applicants.Normalize | public/js/storage.js:23-39 | Normalization maps each entry in place and keeps the length. |
| Applicants.NormalizeFixesCanonical | public/js/storage.js:28-36 | Records written back are left unchanged exactly when each one already has an id, a name and a time stamp. |
| Applicants.NormalizeIdempotent | public/js/storage.js:23-39 | Normalizing twice equals normalizing once if and only if the stored list holds no empty bare name. |
| Applicants.Without | public/js/storage.js:147 | The filter keeps exactly the applicants whose contact differs from the given one, and never grows the list. |
| Applicants.WithoutDistributes | public/js/storage.js:147 | The filter distributes over concatenation, so survivors keep their relative order. |
| Applicants.WithoutIdempotent | public/js/storage.js:147 | Filtering twice by one contact equals filtering once. |
| Applicants.WithoutKeepsDistinct | public/js/storage.js:147 | Filtering keeps non-empty contacts pairwise distinct. |
| Jobs.FindJob | public/js/storage.js:122 | The lookup returns the first position holding the id, and None exactly when no job has it. |
| Jobs.AddJob | public/js/storage.js:113-119 | The new job goes in front of the list. It has a non-empty generated id, trimmed title, description and location, the given creator, count and price, no applicants and the current time. Nothing else in the store changes. |
| Jobs.DeleteJob | public/js/storage.js:120-128 | The reply is true if and only if the first job with the id was created by the caller, and then exactly that position is removed. On false nothing changes. |
| Jobs.DeleteRemovesExactlyThatJob | public/js/storage.js:120-128 | With unique ids, a successful delete keeps every job except the one with the id. |
| Jobs.DeleteUndoesAdd | public/js/storage.js:113-128 | Deleting a just-added job as its creator restores the store exactly. |
| Jobs.AddJobKeepsIdsUnique | public/js/storage.js:113-119 | Adding a job under an unused id keeps job ids unique. |
| Jobs.DeleteKeepsIdsUnique | public/js/storage.js:120-128 | Deleting keeps job ids unique. |
| Applying.Apply | public/js/storage.js:129-142 | The checks run in a fixed order: job exists, name and contact present, contact ten digits, passkey, not full, not a duplicate. The first failure decides the reply, and any failure leaves the store unchanged. Success holds if and only if all checks pass. A success appends one record with the trimmed name and contact to the normalized list, within the required count, and changes nothing else. |
| Applying.ApplyCorrected | public/js/storage.js:129-141 | The sign-up with the duplicate test on the trimmed contact. Every other refusal comes in the same order as in `Applying.Apply`, and for a contact given without surrounding whitespace the result is exactly `Applying.Apply`'s. It answers "You already signed up" if and only if the form is accepted, the job is not full and the trimmed contact is already listed. A success stores that trimmed contact within the required count. |
| Applying.ApplyRespectsCapacity | public/js/storage.js:137 | After a sign-up the job's list is within its required count, or the job is unchanged. |
| Applying.FullJobRefuses | public/js/storage.js:137 | A valid sign-up to a job whose list has reached its required count is "Job filled", and nothing changes. |
| Applying.SecondSignUpRefused | public/js/storage.js:138 | After a contact without surrounding whitespace signs up, the same contact is refused: "You already signed up", or "Job filled" if the first sign-up filled the job. |
| Applying.UntrimmedContactAdmitsDuplicate | public/js/storage.js:138-139 | Counterexample: " 1111111111" is admitted next to "1111111111", and the job then lists one contact twice. |
| Applying.ApplyCorrectedKeepsContactsDistinct | public/js/storage.js:138-139 | With the corrected check, a sign-up keeps each job's non-empty contacts distinct. |
| Applying.Unapply | public/js/storage.js:143-150 | "Job not found" holds exactly when the job is missing, and then nothing changes. Otherwise the withdrawal always succeeds and keeps exactly the normalized applicants whose contact differs from the trimmed contact, in their stored order. |
| Applying.UnapplyUndoesApply | public/js/storage.js:129-150 | Withdrawing right after signing up with the same contact leaves the job's pre-sign-up list, in normalized form, whatever the name given. |
| Applying.UnapplyIdempotent | public/js/storage.js:143-150 | Withdrawing twice by one contact equals withdrawing once. |
| Applying.UnapplyKeepsContactsDistinct | public/js/storage.js:147 | A withdrawal keeps the job's non-empty contacts distinct. |
| Auth.VerifyOrSetupRecruiter | public/js/storage.js:65-86 | With no digest stored, the first call provisions the trimmed email and password digest, opens a recruiter session and reports setup. Afterwards the credential never changes. A wrong email fails before a wrong password, and success holds if and only if both match. Failures change nothing. |
| Auth.ReloginAfterSetup | public/js/storage.js:70-85 | After provisioning, the same password with an email that trims the same way logs in again without setup. |
| Auth.EmptyEmailRefused | public/js/storage.js:77-79 | Once a non-empty email is stored, an empty email is refused, whatever the password. |
| Auth.BlankEmailRenamesSession | public/js/storage.js:71-83 | Provisioning with a blank email names the session "". Every later login is named "recruiter". |
| Auth.RecruiterScenario | public/js/storage.js:65-86 | "r@x.com"/"pw1" provisions, then "r@x.com"/"pw2" is "Invalid password", then "other@x.com"/"pw1" is an email mismatch. |
| Auth.RequireRole | public/js/storage.js:87-92 | No session is "no_session". A given role that differs from the session's is "wrong_role". Success holds if and only if neither applies, and it returns the session. |
| Auth.LoginLabor | public/js/storage.js:95-111 | The checks run in order: name and contact present, passkey, ten digits, no other name under the contact. Success holds if and only if all pass. A success registers the contact only if it is new and opens a laborer session named by the trimmed contact. Failures change nothing. |
| Auth.LoginIdempotent | public/js/storage.js:95-111 | Logging in twice with the same details gives the same reply and store as logging in once. |
| Auth.LoginGrantsLaborerRole | public/js/storage.js:87-111 | After a successful laborer login, the laborer gate passes and the recruiter gate is "wrong_role". |
| Auth.RegisteredNameIsPinned | public/js/storage.js:103-106 | After a login the registered name is the trimmed name, or empty. Any other trimmed name under that contact is then refused. |
| Views.View | public/js/storage.js:152 | A listed job equals the stored job except for its applicants. Each listed applicant is the normalized record of the stored entry at its position, with its id, name fallback and time stamp, so the contacts and users are the stored ones. |
| Views.FilterAppend | public/js/storage.js:151-159 | Filtering distributes over concatenation, so the listings keep stored order. |
| Views.KeepsStored | public/js/storage.js:151-159 | Normalization never changes whether a job is listed. |
| Views.ListingOfOne | public/js/storage.js:151-159 | A listing of one stored job holds its view exactly when the job meets the criterion. |
| Views.ListingAppend | public/js/storage.js:151-159 | The listing of two runs of jobs is the first run's listing followed by the second's, so with `Views.ListingOfOne` every listing holds the kept views in stored order. |
| Views.OpenJobs | public/js/storage.js:154-156 | A view is listed if and only if its stored job has fewer applicants than it requires. The order is the stored order (`Views.ListingAppend`). |
| Views.JobsForRecruiter | public/js/storage.js:151-153 | A view is listed if and only if its stored job was created by the username. The order is the stored order (`Views.ListingAppend`). |
| Views.JobsForLaborer | public/js/storage.js:157-159 | A view is listed if and only if some applicant of the stored job has the username as user or as contact. The order is the stored order (`Views.ListingAppend`). |
| Views.AddedJobListedFirst | public/js/storage.js:116 | A new job heads every listing that keeps it, and the rest of the listing is the one before. |
| Views.AddedJobVisibility | public/js/storage.js:154-156 | A new job is listed as open if and only if its required count is positive, and it is always first for its creator. |
| Views.SignedUpJobListed | public/js/storage.js:157-159 | After a sign-up, the job is listed for the laborer whose username is the trimmed contact. |
| Views.DeletedJobUnlisted | public/js/storage.js:125 | With unique ids, a deleted job appears in no listing. |
| Machine.Step | public/js/storage.js:160-170 | A flag picks the duplicate check for sign-ups, as written or corrected. Refusals and reads leave the store unchanged. Jobs, credential, registry and session are each written only by the operations that own them. Logout clears only the session. |
| Machine.Run | public/js/storage.js:160-170 | There is one reply per call. Without job calls the job list stays the same. Without recruiter sign-ins the credential stays the same. Reads alone change nothing. |
| Machine.StepKeepsCapacity | public/js/storage.js:137 | Every operation keeps each job within its required count. |
| Machine.RunKeepsCapacity | public/js/storage.js:137-139 | Any sequence of operations keeps each job within its required count. |
| Machine.StepKeepsContactsDistinct | public/js/storage.js:138-139 | With the corrected duplicate check, every operation keeps each job's contacts distinct. The check as written breaks this (`Applying.UntrimmedContactAdmitsDuplicate`). |
| Machine.RunKeepsContactsDistinct | public/js/storage.js:138-139 | With the corrected duplicate check, no contact signs up twice for a job after any sequence of operations. The check as written breaks this (`Applying.UntrimmedContactAdmitsDuplicate`). |
| Machine.RunKeepsCredential | public/js/storage.js:70-76 | Once a digest is stored, no sequence of operations changes the credential. |
| Machine.SetupIsPermanent | public/js/storage.js:70-76 | The credential the first recruiter sign-in provisions remains after any later operations. |
| Machine.StepKeepsIdsUnique | public/js/storage.js:20-22 | Every operation keeps job ids unique, given that a new job's generated id is unused. |
| Machine.SessionSurvivesOtherCalls | public/js/storage.js:54-56 | Only sign-ins and sign-out change the session. |
| Machine.SecondNameRefused | public/js/storage.js:95-111 | A contact's first login succeeds, and a later login with a name that trims differently is refused. |
| Machine.LaborerScenario | public/js/storage.js:95-111 | "Ravi" logs in with "5550001234", then "Sita" with the same contact is refused. |

## Left out

- Reading and writing `localStorage`, JSON parsing and its fallbacks (`public/js/storage.js:8-19`, `52-56`): the store is the `State` value itself.
- The raw accessors exported next to the business operations (`public/js/storage.js:160-170`): `getJobs`, `setJobs`, `getSession`, `setSession`, `clearSession` and `ensureSeedData`. `setJobs` and `setSession` can write any job list or session, so the `Machine` invariants (capacity, distinct contacts, the session surviving other calls) hold only over the modelled business operations. `clearSession` is what `SignOut` does.
- `ensureSeedData` (`public/js/storage.js:40-51`): it only writes when no job list exists, and the model always has one.
- The laborer registry's persistence in `public/js/data.js`: that file is not part of this model. The registry is the `laborers` map, and it is assumed to be present.
- SHA-256 and text encoding (`public/js/storage.js:58-64`): a parameter mapping a string to 64 hex digits. Whether two passwords collide is left to that parameter.
- `generateId` and the clock: the `Env` parameter. Each listing call normalizes every job with the same `Env`, so ids generated only for display may repeat across jobs. They are never stored.
- Jobs.AddJob: `Number(...)` coercion and `NaN` are not modelled. The price and required count are already integers.
- Every text field is modelled as a string, so the model does not cover JavaScript objects holding non-string values (numbers, `null`) in text fields.
- Missing or non-string arguments to the operations: every argument is a string. In the source such an argument does not read as "". `unapplyFromJobByContact` turns a missing contact into the text "undefined" through `String(contact)` (`public/js/storage.js:147`), so it removes nobody, while `Applying.Unapply` with "" removes every entry without a contact. `addJob` throws on a missing title or description (`public/js/storage.js:115`), while `Jobs.AddJob` has no failure path.
- `trim` and `\d` on UTF-16 code units: the model's characters are Unicode scalar values.
- The `async` recruiter login and interleaved callers: operations are atomic and sequential.
- Applying.UnapplyUndoesApply: requires the contact to be given without surrounding whitespace, because the duplicate test as written compares the raw contact (see "## Findings"). It also requires the stored list to hold no empty bare name, because the second normalization renames that entry "Unknown".
- Applying.UnapplyIdempotent: holds only when the stored list has no empty bare name. Normalization turns that one into a record with an empty name, and the second pass renames it "Unknown", so the source's behaviour is not idempotent there either.
- Machine.StepKeepsIdsUnique: requires that the id generated for a new job is unused. The source draws it at random and does not check.
- Machine.Step: takes a flag that chooses, for sign-ups, between the duplicate check as written (`Applying.Apply`) and the corrected one (`Applying.ApplyCorrected`, see "## Findings"). Every `Machine` invariant holds for both choices except distinct contacts, which `Machine.StepKeepsContactsDistinct` and `Machine.RunKeepsContactsDistinct` prove only for the corrected check.

## Findings

| source | as written | input that shows it | evidently intended | confidence | as-written member | corrected member |
|---|---|---|---|---|---|---|
| public/js/storage.js:138-139 | The duplicate test compares the contact as given with the stored contacts, but the contact is stored trimmed | A job lists contact "1111111111" and a sign-up gives " 1111111111": the test passes and the job lists the contact twice | Compare the trimmed contact, the form that is stored | high; not executed | Applying.UntrimmedContactAdmitsDuplicate | Applying.ApplyCorrectedKeepsContactsDistinct |

=== FILE: applicants.dfy ===
/** `normalizeApplicants` and the per-job applicant-list operations built on it. */
module Applicants {
  import opened Domain

  /** The contact an entry carries; entries without one read as "". */
  function StoredContact(a: StoredApplicant): string {
    match a
    case LegacyName(_) => ""
    case Record(f) => f.contact
    case Malformed => ""
  }

  /** The legacy `user` an entry carries; entries without one read as "". */
  function StoredUser(a: StoredApplicant): string {
    match a
    case LegacyName(s) => s
    case Record(f) => f.user
    case Malformed => ""
  }

  /** A record normalization leaves as it is. */
  predicate Canonical(a: Applicant) {
    a.id != [] && a.name != [] && a.appliedAt != []
  }

  /** Normalizes the entry at position `k`: a bare name becomes a record whose
      name and user are that name; a record keeps every non-empty field and
      gets a fresh id, a name ("Unknown" when it has neither name nor user)
      and a time stamp where they are missing; anything else becomes an
      "Unknown" record. */
  function NormalizeOne(a: StoredApplicant, env: Env, k: nat): (r: Applicant)
    ensures r.id != [] && r.appliedAt != []
    ensures r.contact == StoredContact(a) && r.user == StoredUser(a)
    ensures r.name == [] <==> a == LegacyName([])
    ensures a.LegacyName? ==> r.name == a.text && r.user == a.text && r.contact == []
    ensures a.Record? ==>
      && (a.fields.id != [] ==> r.id == a.fields.id)
      && (a.fields.name != [] ==> r.name == a.fields.name)
      && (a.fields.appliedAt != [] ==> r.appliedAt == a.fields.appliedAt)
    ensures a.Record? && a.fields.name == [] ==> r.name == Or(a.fields.user, "Unknown")
    ensures (a.Record? ==> a.fields.appliedAt == []) ==> r.appliedAt == env.now
    ensures a.Record? && Canonical(a.fields) ==> r == a.fields
    ensures a.Malformed? ==> r.name == "Unknown"
  {
    match a
    case LegacyName(s) => Applicant(GenerateId(env, k), s, s, "", env.now)
    case Record(f) =>
      Applicant(Or(f.id, GenerateId(env, k)), Or(f.name, Or(f.user, "Unknown")), f.user, f.contact, Or(f.appliedAt, env.now))
    case Malformed => Applicant(GenerateId(env, k), "Unknown", "", "", env.now)
  }

  /** `normalizeApplicants`: every entry normalized, in place. */
  function Normalize(arr: seq<StoredApplicant>, env: Env): (r: seq<Applicant>)
    ensures |r| == |arr|
    ensures forall k :: 0 <= k < |arr| ==> r[k] == NormalizeOne(arr[k], env, k)
  {
    seq(|arr|, k requires 0 <= k < |arr| => NormalizeOne(arr[k], env, k))
  }

  /** Normalized records as they are written back to storage. */
  function Entries(apps: seq<Applicant>): (r: seq<StoredApplicant>)
    ensures |r| == |apps|
    ensures forall k :: 0 <= k < |apps| ==> r[k] == Record(apps[k])
  {
    seq(|apps|, k requires 0 <= k < |apps| => Record(apps[k]))
  }

  /** Written-back records normalize to themselves exactly when each one
      already has an id, a name and a time stamp. */
  lemma NormalizeFixesCanonical(apps: seq<Applicant>, env: Env)
    ensures Normalize(Entries(apps), env) == apps <==> forall k :: 0 <= k < |apps| ==> Canonical(apps[k])
  {
    var n := Normalize(Entries(apps), env);
    if forall k :: 0 <= k < |apps| ==> Canonical(apps[k]) {
      assert forall k :: 0 <= k < |apps| ==> n[k] == apps[k];
    } else {
      var k :| 0 <= k < |apps| && !Canonical(apps[k]);
      assert Entries(apps)[k] == Record(apps[k]);
      assert n[k] != apps[k];
    }
  }

  /** Normalizing a normalized list changes nothing, unless the stored list
      held an empty bare name: that one first becomes a record with an empty
      name, which the second pass renames "Unknown". */
  lemma NormalizeIdempotent(arr: seq<StoredApplicant>, e1: Env, e2: Env)
    ensures Normalize(Entries(Normalize(arr, e1)), e2) == Normalize(arr, e1)
        <==> forall k :: 0 <= k < |arr| ==> arr[k] != LegacyName([])
  {
    var n := Normalize(arr, e1);
    NormalizeFixesCanonical(n, e2);
    assert forall k :: 0 <= k < |arr| ==> (Canonical(n[k]) <==> arr[k] != LegacyName([]));
  }

  /** The applicants whose contact differs from `contact`, in their order. */
  function Without(apps: seq<Applicant>, contact: string): (r: seq<Applicant>)
    ensures |r| <= |apps|
    ensures forall a :: a in r <==> a in apps && a.contact != contact
    decreases |apps|
  {
    if apps == [] then []
    else if apps[0].contact != contact then [apps[0]] + Without(apps[1..], contact)
    else Without(apps[1..], contact)
  }

  /** Filtering by contact distributes over concatenation, so it keeps the
      relative order of the survivors. */
  lemma {:induction false} WithoutDistributes(a: seq<Applicant>, b: seq<Applicant>, contact: string)
    ensures Without(a + b, contact) == Without(a, contact) + Without(b, contact)
    decreases |a|
  {
    if a == [] {
      assert a + b == b;
    } else {
      assert (a + b)[1..] == a[1..] + b;
      WithoutDistributes(a[1..], b, contact);
    }
  }

  /** A list in which nobody has `contact` passes through the filter whole. */
  lemma {:induction false} WithoutKeepsAbsent(apps: seq<Applicant>, contact: string)
    requires forall k :: 0 <= k < |apps| ==> apps[k].contact != contact
    ensures Without(apps, contact) == apps
    decreases |apps|
  {
    if apps != [] {
      WithoutKeepsAbsent(apps[1..], contact);
      assert [apps[0]] + apps[1..] == apps;
    }
  }

  /** Filtering twice by the same contact is filtering once. */
  lemma WithoutIdempotent(apps: seq<Applicant>, contact: string)
    ensures Without(Without(apps, contact), contact) == Without(apps, contact)
  {
    var r := Without(apps, contact);
    assert forall k :: 0 <= k < |r| ==> r[k] in r;
    WithoutKeepsAbsent(r, contact);
  }

  /** Some applicant has a non-empty contact equal to `contact`. */
  predicate ContactTaken(apps: seq<Applicant>, contact: string) {
    exists k :: 0 <= k < |apps| && apps[k].contact != [] && apps[k].contact == contact
  }

  /** No two entries share a non-empty contact. */
  predicate DistinctContacts(arr: seq<StoredApplicant>) {
    forall a, b :: 0 <= a < b < |arr| && StoredContact(arr[a]) != [] ==> StoredContact(arr[a]) != StoredContact(arr[b])
  }

  /** No two records share a non-empty contact. */
  predicate DistinctApplicantContacts(apps: seq<Applicant>) {
    forall a, b :: 0 <= a < b < |apps| && apps[a].contact != [] ==> apps[a].contact != apps[b].contact
  }

  /** Normalization keeps every contact in place, so it keeps them distinct,
      and writing records back does too. */
  lemma NormalizeKeepsDistinct(arr: seq<StoredApplicant>, env: Env)
    ensures DistinctApplicantContacts(Normalize(arr, env)) <==> DistinctContacts(arr)
    ensures forall apps: seq<Applicant> :: DistinctContacts(Entries(apps)) <==> DistinctApplicantContacts(apps)
  {
  }

  /** Filtering out a contact keeps the remaining contacts distinct. */
  lemma {:induction false} WithoutKeepsDistinct(apps: seq<Applicant>, contact: string)
    requires DistinctApplicantContacts(apps)
    ensures DistinctApplicantContacts(Without(apps, contact))
    decreases |apps|
  {
    if apps != [] {
      var tail := apps[1..];
      assert forall k :: 0 <= k < |tail| ==> tail[k] == apps[k + 1];
      WithoutKeepsDistinct(tail, contact);
      var rest := Without(tail, contact);
      if apps[0].contact != contact {
        var r := [apps[0]] + rest;
        forall a, b | 0 <= a < b < |r| && r[a].contact != []
          ensures r[a].contact != r[b].contact
        {
          if a == 0 {
            assert r[b] == rest[b - 1] && rest[b - 1] in rest;
            var j :| 0 <= j < |tail| && tail[j] == r[b];
            assert apps[j + 1] == r[b];
          } else {
            assert r[a] == rest[a - 1] && r[b] == rest[b - 1];
          }
        }
      }
    }
  }
}

=== FILE: applying.dfy ===
/** `applyToJobWithDetails` and `unapplyFromJobByContact`. */
module Applying {
  import opened Domain
  import opened Text
  import opened Applicants
  import opened Jobs

  /** The form passes the three input checks: name and contact present, the
      trimmed contact ten digits, the shared passkey. */
  predicate FormAccepted(form: ApplyForm) {
    form.name != [] && form.contact != [] && IsTenDigits(Trim(form.contact)) && form.passkey == SharedPasskey
  }

  /** The record a successful sign-up appends: a fresh id, the trimmed name
      and contact, no legacy user, the current time. */
  function Joined(form: ApplyForm, env: Env, k: nat): Applicant {
    Applicant(GenerateId(env, k), Trim(form.name), "", Trim(form.contact), env.now)
  }

  /** A successful reply whose job is the `i`-th one with `apps` written back
      as its applicant list, and the store holding that job. */
  function Rewritten(st: State, i: nat, apps: seq<Applicant>): Outcome<Result<Job>>
    requires i < |st.jobs|
  {
    var updated := st.jobs[i].(applicants := Entries(apps));
    Outcome(Success(updated), st.(jobs := st.jobs[i := updated]))
  }

  /** Rewriting the same job twice keeps only the second list. */
  lemma RewrittenTwice(st: State, i: nat, a: seq<Applicant>, b: seq<Applicant>)
    requires i < |st.jobs|
    ensures Rewritten(Rewritten(st, i, a).next, i, b) == Rewritten(st, i, b)
  {
    var mid := Rewritten(st, i, a).next;
    assert mid.jobs[i].(applicants := Entries(b)) == st.jobs[i].(applicants := Entries(b));
    assert mid.jobs[i := st.jobs[i].(applicants := Entries(b))] == st.jobs[i := st.jobs[i].(applicants := Entries(b))];
  }

  /** The sign-up with the duplicate check comparing `probe` against the
      normalized contacts; the stored applicant always gets the trimmed
      contact and name. */
  function ApplyProbing(st: State, jobId: string, form: ApplyForm, env: Env, probe: string): Outcome<Result<Job>> {
    match FindJob(st.jobs, jobId)
    case None => Outcome(Failure(JobNotFound), st)
    case Some(i) =>
      if form.name == [] || form.contact == [] then Outcome(Failure(MissingDetails), st)
      else if !IsTenDigits(Trim(form.contact)) then Outcome(Failure(ContactNotTenDigits), st)
      else if form.passkey != SharedPasskey then Outcome(Failure(InvalidPasskey), st)
      else
        var job := st.jobs[i];
        var apps := Normalize(job.applicants, env);
        if |apps| >= job.requiredCount then Outcome(Failure(JobFilled), st)
        else if ContactTaken(apps, probe) then Outcome(Failure(AlreadySignedUp), st)
        else Rewritten(st, i, apps + [Joined(form, env, |apps|)])
  }

  /** `applyToJobWithDetails` as written: the checks run in a fixed order and
      the first failure wins with its own reply; a failure leaves the store as
      it was; a success appends exactly one applicant, with the trimmed name
      and contact, to the normalized list of the first job with the id, and
      changes nothing else. The duplicate check compares the contact AS GIVEN. */
  function Apply(st: State, jobId: string, form: ApplyForm, env: Env): (out: Outcome<Result<Job>>)
    ensures out.value.Failure? ==> out.next == st
    ensures FindJob(st.jobs, jobId).None? ==> out.value == Failure(JobNotFound)
    ensures FindJob(st.jobs, jobId).Some? ==>
      var job := st.jobs[FindJob(st.jobs, jobId).value];
      var apps := Normalize(job.applicants, env);
      && ((form.name == [] || form.contact == []) ==> out.value == Failure(MissingDetails))
      && (form.name != [] && form.contact != [] && !IsTenDigits(Trim(form.contact)) ==>
            out.value == Failure(ContactNotTenDigits))
      && (form.name != [] && form.contact != [] && IsTenDigits(Trim(form.contact)) && form.passkey != SharedPasskey ==>
            out.value == Failure(InvalidPasskey))
      && (FormAccepted(form) && |apps| >= job.requiredCount ==> out.value == Failure(JobFilled))
      && (FormAccepted(form) && |apps| < job.requiredCount && ContactTaken(apps, form.contact) ==>
            out.value == Failure(AlreadySignedUp))
      && (out.value.Success? <==>
            FormAccepted(form) && |apps| < job.requiredCount && !ContactTaken(apps, form.contact))
    ensures out.value.Success? ==>
      var i := FindJob(st.jobs, jobId).value;
      var job := st.jobs[i];
      var updated := out.value.value;
      && out.next == st.(jobs := st.jobs[i := updated])
      && updated == job.(applicants := updated.applicants)
      && |updated.applicants| == |job.applicants| + 1 <= job.requiredCount
      && updated.applicants[..|job.applicants|] == Entries(Normalize(job.applicants, env))
      && updated.applicants[|job.applicants|].Record?
      && updated.applicants[|job.applicants|].fields.name == Trim(form.name)
      && updated.applicants[|job.applicants|].fields.contact == Trim(form.contact)
      && updated.applicants[|job.applicants|].fields.user == []
      && updated.applicants[|job.applicants|].fields.appliedAt == env.now
  {
    ApplyProbing(st, jobId, form, env, form.contact)
  }

  /** The sign-up as evidently intended: the duplicate check compares the
      TRIMMED contact, the one that is stored. */
  function ApplyCorrected(st: State, jobId: string, form: ApplyForm, env: Env): (out: Outcome<Result<Job>>)
    ensures out.value.Failure? ==> out.next == st
    ensures FindJob(st.jobs, jobId).None? ==> out.value == Failure(JobNotFound)
    ensures FindJob(st.jobs, jobId).Some? ==>
      var job := st.jobs[FindJob(st.jobs, jobId).value];
      var apps := Normalize(job.applicants, env);
      && ((form.name == [] || form.contact == []) ==> out.value == Failure(MissingDetails))
      && (form.name != [] && form.contact != [] && !IsTenDigits(Trim(form.contact)) ==>
            out.value == Failure(ContactNotTenDigits))
      && (form.name != [] && form.contact != [] && IsTenDigits(Trim(form.contact)) && form.passkey != SharedPasskey ==>
            out.value == Failure(InvalidPasskey))
      && (FormAccepted(form) && |apps| >= job.requiredCount ==> out.value == Failure(JobFilled))
      && (out.value == Failure(AlreadySignedUp) <==>
            FormAccepted(form) && |apps| < job.requiredCount && ContactTaken(apps, Trim(form.contact)))
      && (out.value.Success? <==>
            FormAccepted(form) && |apps| < job.requiredCount && !ContactTaken(apps, Trim(form.contact)))
    ensures form.contact == Trim(form.contact) ==> out == Apply(st, jobId, form, env)
    ensures out.value.Success? ==>
      var i := FindJob(st.jobs, jobId).value;
      var updated := out.value.value;
      && out.next == st.(jobs := st.jobs[i := updated])
      && updated == st.jobs[i].(applicants := updated.applicants)
      && |updated.applicants| == |st.jobs[i].applicants| + 1 <= st.jobs[i].requiredCount
      && updated.applicants[..|st.jobs[i].applicants|] == Entries(Normalize(st.jobs[i].applicants, env))
      && StoredContact(updated.applicants[|st.jobs[i].applicants|]) == Trim(form.contact)
  {
    ApplyProbing(st, jobId, form, env, Trim(form.contact))
  }

  /** Capacity: a job that was within its required count stays within it. */
  lemma ApplyRespectsCapacity(st: State, jobId: string, form: ApplyForm, env: Env, i: nat)
    requires FindJob(st.jobs, jobId) == Some(i)
    ensures |Apply(st, jobId, form, env).next.jobs[i].applicants| <= st.jobs[i].requiredCount
         || Apply(st, jobId, form, env).next.jobs[i] == st.jobs[i]
  {
  }

  /** A valid sign-up to a job whose list has reached the required count is
      refused with "Job filled", whoever applies. */
  lemma FullJobRefuses(st: State, jobId: string, form: ApplyForm, env: Env, i: nat)
    requires FindJob(st.jobs, jobId) == Some(i)
    requires FormAccepted(form)
    requires |st.jobs[i].applicants| >= st.jobs[i].requiredCount
    ensures Apply(st, jobId, form, env) == Outcome(Failure(JobFilled), st)
  {
  }

  /** Duplicates: once contact `c` (given without surrounding whitespace) has
      signed up, a second valid sign-up with `c` is refused, with "You already
      signed up" unless the first one filled the job. */
  lemma SecondSignUpRefused(st: State, jobId: string, form: ApplyForm, again: ApplyForm, e1: Env, e2: Env, i: nat)
    requires FindJob(st.jobs, jobId) == Some(i)
    requires Apply(st, jobId, form, e1).value.Success?
    requires form.contact == Trim(form.contact)
    requires again.contact == form.contact && again.name != [] && again.passkey == SharedPasskey
    ensures var r := Apply(Apply(st, jobId, form, e1).next, jobId, again, e2).value;
            r == Failure(JobFilled) || r == Failure(AlreadySignedUp)
    ensures |st.jobs[i].applicants| + 1 < st.jobs[i].requiredCount ==>
            Apply(Apply(st, jobId, form, e1).next, jobId, again, e2).value == Failure(AlreadySignedUp)
  {
    var first := Apply(st, jobId, form, e1);
    var updated := first.value.value;
    FindJobAfterUpdate(st.jobs, jobId, i, updated);
    assert first.next.jobs[i] == updated;
    var apps := Normalize(updated.applicants, e2);
    var last := |st.jobs[i].applicants|;
    assert apps[last].contact == StoredContact(updated.applicants[last]) == Trim(form.contact);
    assert ContactTaken(apps, again.contact);
  }

  /** A contact with one leading space trims to the bare ten digits. */
  lemma SpacedContactTrims()
    ensures Trim(" 1111111111") == "1111111111" && IsTenDigits("1111111111")
  {
    var spaced := " 1111111111";
    assert IsTenDigits("1111111111");
    assert TrimFrom(spaced) == 1;
    assert TrimTo(spaced) == |spaced|;
    assert spaced[1..|spaced|] == "1111111111";
  }

  /** The gap in the duplicate check: a contact already on the list, given
      again with a leading space, passes the check and is stored a second time. */
  lemma UntrimmedContactAdmitsDuplicate(env: Env)
    ensures var first := Applicant("a1", "Ann", "", "1111111111", "2024-01-01T00:00:00.000Z");
            var job := Job("j1", "Loader", "", 220, 5, "r@x.com", [Record(first)], "2024-01-01T00:00:00.000Z", "Pune", "");
            var st := State([job], None, None, map[]);
            var out := Apply(st, "j1", ApplyForm("Ann", " 1111111111", "1234"), env);
            out.value.Success? && DistinctContacts(job.applicants) && !DistinctContacts(out.value.value.applicants)
  {
    var first := Applicant("a1", "Ann", "", "1111111111", "2024-01-01T00:00:00.000Z");
    var job := Job("j1", "Loader", "", 220, 5, "r@x.com", [Record(first)], "2024-01-01T00:00:00.000Z", "Pune", "");
    var st := State([job], None, None, map[]);
    var form := ApplyForm("Ann", " 1111111111", "1234");
    assert FindJob(st.jobs, "j1") == Some(0);
    SpacedContactTrims();
    assert FormAccepted(form);
    var apps := Normalize(job.applicants, env);
    assert apps == [first];
    assert " 1111111111" != "1111111111";
    assert !ContactTaken(apps, form.contact);
    var after := apps + [Joined(form, env, 1)];
    var out := Rewritten(st, 0, after);
    assert ApplyProbing(st, "j1", form, env, form.contact) == out;
    assert Apply(st, "j1", form, env) == out;
    var stored := out.value.value.applicants;
    assert stored == Entries(after);
    assert StoredContact(stored[0]) == "1111111111" == StoredContact(stored[1]);
    assert !DistinctContacts(stored);
  }

  /** The corrected sign-up keeps the non-empty contacts of a job distinct. */
  lemma ApplyCorrectedKeepsContactsDistinct(st: State, jobId: string, form: ApplyForm, env: Env, i: nat)
    requires FindJob(st.jobs, jobId) == Some(i)
    requires DistinctContacts(st.jobs[i].applicants)
    ensures DistinctContacts(ApplyCorrected(st, jobId, form, env).next.jobs[i].applicants)
  {
    var out := ApplyCorrected(st, jobId, form, env);
    if out.value.Success? {
      var before := st.jobs[i].applicants;
      var after := out.next.jobs[i].applicants;
      var apps := Normalize(before, env);
      var n := |before|;
      assert |after| == n + 1;
      assert forall k :: 0 <= k < n ==> StoredContact(after[k]) == StoredContact(before[k]) by {
        assert after[..n] == Entries(apps);
        forall k | 0 <= k < n ensures StoredContact(after[k]) == StoredContact(before[k]) {
          assert after[k] == after[..n][k];
        }
      }
      assert !ContactTaken(apps, Trim(form.contact));
      forall a, b | 0 <= a < b < |after| && StoredContact(after[a]) != []
        ensures StoredContact(after[a]) != StoredContact(after[b])
      {
        if b == n {
          assert apps[a].contact == StoredContact(before[a]);
        }
      }
    }
  }

  /** `unapplyFromJobByContact`: for a job that exists it always succeeds and
      keeps exactly the normalized applicants whose contact differs from the
      trimmed `contact`, in their order; a missing job is "Job not found" and
      nothing changes. */
  function Unapply(st: State, jobId: string, contact: string, env: Env): (out: Outcome<Result<Job>>)
    ensures out.value == Failure(JobNotFound) <==> FindJob(st.jobs, jobId).None?
    ensures FindJob(st.jobs, jobId).None? ==> out.next == st
    ensures FindJob(st.jobs, jobId).Some? ==> out.value.Success?
    ensures FindJob(st.jobs, jobId).Some? ==>
      var i := FindJob(st.jobs, jobId).value;
      var updated := out.value.value;
      && out.next == st.(jobs := st.jobs[i := updated])
      && updated == st.jobs[i].(applicants := updated.applicants)
      && |updated.applicants| <= |st.jobs[i].applicants|
      && (forall a :: Record(a) in updated.applicants <==>
            a in Normalize(st.jobs[i].applicants, env) && a.contact != Trim(contact))
      && (forall k :: 0 <= k < |updated.applicants| ==> updated.applicants[k].Record?)
      && updated.applicants == Entries(Without(Normalize(st.jobs[i].applicants, env), Trim(contact)))
  {
    match FindJob(st.jobs, jobId)
    case None => Outcome(Failure(JobNotFound), st)
    case Some(i) => Rewritten(st, i, Without(Normalize(st.jobs[i].applicants, env), Trim(contact)))
  }

  /** What a successful sign-up writes: the normalized list plus the new record. */
  lemma ApplyWrites(st: State, jobId: string, form: ApplyForm, env: Env, i: nat)
    requires FindJob(st.jobs, jobId) == Some(i)
    requires Apply(st, jobId, form, env).value.Success?
    ensures var apps := Normalize(st.jobs[i].applicants, env);
            Apply(st, jobId, form, env) == Rewritten(st, i, apps + [Joined(form, env, |apps|)])
            && !ContactTaken(apps, form.contact)
  {
  }

  /** What a withdrawal from an existing job writes. */
  lemma UnapplyWrites(st: State, jobId: string, contact: string, env: Env, i: nat)
    requires FindJob(st.jobs, jobId) == Some(i)
    ensures Unapply(st, jobId, contact, env) == Rewritten(st, i, Without(Normalize(st.jobs[i].applicants, env), Trim(contact)))
  {
  }

  /** On lists: renormalizing, then filtering out the contact just added,
      gives back the canonical list it was added to. The added record need
      not be canonical: whatever its renormalized form, it keeps its contact
      and is filtered out. */
  lemma DropJoined(apps: seq<Applicant>, added: Applicant, env: Env)
    requires forall k :: 0 <= k < |apps| ==> Canonical(apps[k])
    requires added.contact != []
    requires !ContactTaken(apps, added.contact)
    ensures Without(Normalize(Entries(apps + [added]), env), added.contact) == apps
  {
    var again := NormalizeOne(Record(added), env, |apps|);
    var n := Normalize(Entries(apps + [added]), env);
    assert n == apps + [again] by {
      forall k | 0 <= k < |apps|
        ensures n[k] == apps[k]
      {
        assert Entries(apps + [added])[k] == Record(apps[k]);
      }
      assert Entries(apps + [added])[|apps|] == Record(added);
    }
    WithoutDistributes(apps, [again], added.contact);
    WithoutKeepsAbsent(apps, added.contact);
    assert Without([again], added.contact) == [];
  }

  /** Without empty legacy names, normalization yields canonical records only. */
  lemma NormalizeYieldsCanonical(arr: seq<StoredApplicant>, env: Env)
    requires forall k :: 0 <= k < |arr| ==> arr[k] != LegacyName([])
    ensures forall k :: 0 <= k < |arr| ==> Canonical(Normalize(arr, env)[k])
  {
  }

  /** Filtering a canonical list leaves a canonical list. */
  lemma WithoutKeepsCanonical(apps: seq<Applicant>, contact: string)
    requires forall k :: 0 <= k < |apps| ==> Canonical(apps[k])
    ensures forall k :: 0 <= k < |Without(apps, contact)| ==> Canonical(Without(apps, contact)[k])
  {
    var kept := Without(apps, contact);
    forall k | 0 <= k < |kept|
      ensures Canonical(kept[k])
    {
      assert kept[k] in kept;
    }
  }

  /** Withdrawing right after signing up, with the same contact, leaves the
      job with its pre-sign-up list in normalized form. */
  lemma UnapplyUndoesApply(st: State, jobId: string, form: ApplyForm, e1: Env, e2: Env, i: nat)
    requires FindJob(st.jobs, jobId) == Some(i)
    requires Apply(st, jobId, form, e1).value.Success?
    requires form.contact == Trim(form.contact)
    requires forall k :: 0 <= k < |st.jobs[i].applicants| ==> st.jobs[i].applicants[k] != LegacyName([])
    ensures var normalized := st.jobs[i].(applicants := Entries(Normalize(st.jobs[i].applicants, e1)));
            Unapply(Apply(st, jobId, form, e1).next, jobId, form.contact, e2)
              == Outcome(Success(normalized), st.(jobs := st.jobs[i := normalized]))
  {
    var apps := Normalize(st.jobs[i].applicants, e1);
    var added := Joined(form, e1, |apps|);
    ApplyWrites(st, jobId, form, e1, i);
    var mid := Rewritten(st, i, apps + [added]);
    FindJobAfterUpdate(st.jobs, jobId, i, mid.value.value);
    assert FindJob(mid.next.jobs, jobId) == Some(i);
    UnapplyWrites(mid.next, jobId, form.contact, e2, i);
    assert forall k :: 0 <= k < |apps| ==> Canonical(apps[k]);
    DropJoined(apps, added, e2);
    RewrittenTwice(st, i, apps + [added], apps);
  }

  /** Withdrawing twice by the same contact is withdrawing once, provided the
      list holds no empty legacy name (normalization renames that one). */
  lemma UnapplyIdempotent(st: State, jobId: string, contact: string, e1: Env, e2: Env, i: nat)
    requires FindJob(st.jobs, jobId) == Some(i)
    requires forall k :: 0 <= k < |st.jobs[i].applicants| ==> st.jobs[i].applicants[k] != LegacyName([])
    ensures Unapply(Unapply(st, jobId, contact, e1).next, jobId, contact, e2) == Unapply(st, jobId, contact, e1)
  {
    var apps := Normalize(st.jobs[i].applicants, e1);
    var kept := Without(apps, Trim(contact));
    UnapplyWrites(st, jobId, contact, e1, i);
    var once := Rewritten(st, i, kept);
    FindJobAfterUpdate(st.jobs, jobId, i, once.value.value);
    UnapplyWrites(once.next, jobId, contact, e2, i);
    NormalizeYieldsCanonical(st.jobs[i].applicants, e1);
    WithoutKeepsCanonical(apps, Trim(contact));
    NormalizeFixesCanonical(kept, e2);
    WithoutIdempotent(apps, Trim(contact));
    RewrittenTwice(st, i, kept, kept);
  }

  /** A withdrawal keeps the non-empty contacts of the job distinct. */
  lemma UnapplyKeepsContactsDistinct(st: State, jobId: string, contact: string, env: Env, i: nat)
    requires FindJob(st.jobs, jobId) == Some(i)
    requires DistinctContacts(st.jobs[i].applicants)
    ensures DistinctContacts(Unapply(st, jobId, contact, env).next.jobs[i].applicants)
  {
    var apps := Normalize(st.jobs[i].applicants, env);
    NormalizeKeepsDistinct(st.jobs[i].applicants, env);
    WithoutKeepsDistinct(apps, Trim(contact));
    UnapplyWrites(st, jobId, contact, env, i);
  }
}

=== FILE: auth.dfy ===
/** Sessions and identities: the first-writer-wins recruiter credential
    (`verifyOrSetupRecruiter`), laborer login against the registry
    (`loginLabor`) and the role gate (`requireRole`). */
module Auth {
  import opened Domain
  import opened Text

  /** The success record of the recruiter login; `setup` marks the call that
      provisioned the credential. */
  datatype RecruiterLogin = RecruiterLogin(session: Session, setup: bool)

  /** A password digest is on record (the stored digest is not empty). */
  predicate HashStored(st: State) {
    st.recruiter.Some? && st.recruiter.value.passHash != []
  }

  /** The stored email lets `email` through: none is on record, or the trimmed
      `email` is exactly it (an empty `email` included). */
  predicate EmailAccepted(st: State, email: string)
    requires st.recruiter.Some?
  {
    st.recruiter.value.email == [] || Trim(email) == st.recruiter.value.email
  }

  /** `verifyOrSetupRecruiter`. With no digest on record the call provisions
      the credential (trimmed email, digest of the password), opens a
      recruiter session and reports `setup`. Afterwards the credential is never
      rewritten; an email other than the stored one fails first, then a
      password with another digest; a success opens a session named by the
      stored email. Failures change nothing. */
  function VerifyOrSetupRecruiter(st: State, email: string, password: string, hash: string -> Digest)
    : (out: Outcome<Result<RecruiterLogin>>)
    ensures out.value.Failure? ==> out.next == st
    ensures out.next.jobs == st.jobs && out.next.laborers == st.laborers
    ensures !HashStored(st) ==>
      && out.value.Success? && out.value.value.setup
      && out.next.recruiter == Some(Credential(Trim(email), hash(password)))
      && out.value.value.session.username == (if email == [] then "recruiter" else Trim(email))
    ensures HashStored(st) ==> out.next.recruiter == st.recruiter
    ensures HashStored(st) && !EmailAccepted(st, email) ==> out.value == Failure(EmailMismatch)
    ensures HashStored(st) && EmailAccepted(st, email) && hash(password) != st.recruiter.value.passHash ==>
      out.value == Failure(InvalidPassword)
    ensures out.value.Success? <==>
      !HashStored(st) || (EmailAccepted(st, email) && hash(password) == st.recruiter.value.passHash)
    ensures out.value.Success? ==>
      && out.next.session == Some(out.value.value.session)
      && out.value.value.session.role == Recruiter
      && out.value.value.session.name == "Recruiter"
    ensures HashStored(st) && out.value.Success? ==>
      !out.value.value.setup && out.value.value.session.username == Or(st.recruiter.value.email, "recruiter")
  {
    var passHash := hash(password);
    if !HashStored(st) then
      var session := Session(if email == [] then "recruiter" else Trim(email), Recruiter, "Recruiter", None);
      Outcome(Success(RecruiterLogin(session, true)),
              st.(recruiter := Some(Credential(Trim(email), passHash)), session := Some(session)))
    else
      var stored := st.recruiter.value;
      if stored.email != [] && Trim(email) != stored.email then Outcome(Failure(EmailMismatch), st)
      else if stored.passHash != passHash then Outcome(Failure(InvalidPassword), st)
      else
        var session := Session(Or(stored.email, "recruiter"), Recruiter, "Recruiter", None);
        Outcome(Success(RecruiterLogin(session, false)), st.(session := Some(session)))
  }

  /** After provisioning, the same password with an email that trims to the
      same text logs in again, without `setup`. */
  lemma ReloginAfterSetup(st: State, email: string, again: string, password: string, hash: string -> Digest)
    requires !HashStored(st)
    requires Trim(again) == Trim(email)
    ensures var first := VerifyOrSetupRecruiter(st, email, password, hash);
            var second := VerifyOrSetupRecruiter(first.next, again, password, hash);
            second.value.Success? && !second.value.value.setup
            && second.value.value.session.username == Or(Trim(email), "recruiter")
            && second.next.recruiter == first.next.recruiter
  {
  }

  /** Once a non-empty email is on record an empty email is refused, even
      with the right password. */
  lemma EmptyEmailRefused(st: State, password: string, hash: string -> Digest)
    requires HashStored(st) && st.recruiter.value.email != []
    ensures VerifyOrSetupRecruiter(st, "", password, hash) == Outcome(Failure(EmailMismatch), st)
  {
    assert Trim("") == "";
  }

  /** An email of blanks provisions a credential with an empty email and a
      session named "", but every later login is named "recruiter". */
  lemma BlankEmailRenamesSession(st: State, password: string, hash: string -> Digest)
    requires !HashStored(st)
    ensures var first := VerifyOrSetupRecruiter(st, "  ", password, hash);
            var second := VerifyOrSetupRecruiter(first.next, "", password, hash);
            first.value.value.session.username == ""
            && second.value.Success? && second.value.value.session.username == "recruiter"
  {
    assert TrimFrom("  ") == 2;
    assert Trim("  ") == [];
    assert Trim("") == [];
  }

  /** Scenario: "r@x.com"/"pw1" provisions; "r@x.com"/"pw2" is an invalid
      password; "other@x.com"/"pw1" is refused for its email. */
  lemma RecruiterScenario(st: State, hash: string -> Digest)
    requires !HashStored(st)
    requires hash("pw1") != hash("pw2")
    ensures var s1 := VerifyOrSetupRecruiter(st, "r@x.com", "pw1", hash);
            var s2 := VerifyOrSetupRecruiter(s1.next, "r@x.com", "pw2", hash);
            var s3 := VerifyOrSetupRecruiter(s2.next, "other@x.com", "pw1", hash);
            && s1.value.Success? && s1.value.value.setup
            && s2.value == Failure(InvalidPassword)
            && s3.value == Failure(EmailMismatch)
  {
    TrimFixesCleanStrings("r@x.com");
    TrimFixesCleanStrings("other@x.com");
    assert "other@x.com" != "r@x.com";
  }

  /** `requireRole`: no session is "no_session"; a given role the session
      does not have is "wrong_role"; otherwise the session itself. An empty
      expected role accepts any session. */
  function RequireRole(st: State, expected: string): (r: Result<Session>)
    ensures st.session.None? ==> r == Failure(NoSession)
    ensures st.session.Some? && expected != [] && RoleName(st.session.value.role) != expected ==> r == Failure(WrongRole)
    ensures r.Success? <==> st.session.Some? && (expected == [] || RoleName(st.session.value.role) == expected)
    ensures r.Success? ==> r.value == st.session.value
  {
    if st.session.None? then Failure(NoSession)
    else if expected != [] && RoleName(st.session.value.role) != expected then Failure(WrongRole)
    else Success(st.session.value)
  }

  /** The three input checks of the laborer login pass. */
  predicate LoginInputsAccepted(name: string, contact: string, passkey: string) {
    name != [] && contact != [] && passkey == SharedPasskey && IsTenDigits(Trim(contact))
  }

  /** The registry already holds `contact` under a different, non-empty name. */
  predicate NameClash(st: State, contact: string, name: string) {
    contact in st.laborers && st.laborers[contact].name != [] && st.laborers[contact].name != name
  }

  /** `loginLabor`. Checks, first failure wins: name and contact present, the
      shared passkey, a ten-digit trimmed contact, no other name registered
      under that contact. A success registers the contact if it is new (an
      existing record is kept as it is) and opens a laborer session named by
      the trimmed contact. Failures change nothing. */
  function LoginLabor(st: State, name: string, contact: string, passkey: string, env: Env)
    : (out: Outcome<Result<Session>>)
    ensures out.value.Failure? ==> out.next == st
    ensures out.next.jobs == st.jobs && out.next.recruiter == st.recruiter
    ensures name == [] || contact == [] ==> out.value == Failure(MissingNameOrContact)
    ensures name != [] && contact != [] && passkey != SharedPasskey ==> out.value == Failure(InvalidPasskey)
    ensures name != [] && contact != [] && passkey == SharedPasskey && !IsTenDigits(Trim(contact)) ==>
      out.value == Failure(ContactNotTenDigits)
    ensures LoginInputsAccepted(name, contact, passkey) && NameClash(st, Trim(contact), Trim(name)) ==>
      out.value == Failure(NameMismatch)
    ensures out.value.Success? <==>
      LoginInputsAccepted(name, contact, passkey) && !NameClash(st, Trim(contact), Trim(name))
    ensures out.value.Success? ==>
      var c := Trim(contact);
      && out.value.value == Session(c, Laborer, Trim(name), Some(c))
      && out.next.session == Some(out.value.value)
      && (c in st.laborers ==> out.next.laborers == st.laborers)
      && (c !in st.laborers ==> out.next.laborers == st.laborers[c := LaborerRecord(Trim(name), c, env.now)])
  {
    if name == [] || contact == [] then Outcome(Failure(MissingNameOrContact), st)
    else if passkey != SharedPasskey then Outcome(Failure(InvalidPasskey), st)
    else if !IsTenDigits(Trim(contact)) then Outcome(Failure(ContactNotTenDigits), st)
    else
      var c := Trim(contact);
      var n := Trim(name);
      if c in st.laborers && st.laborers[c].name != [] && st.laborers[c].name != n then
        Outcome(Failure(NameMismatch), st)
      else
        var record := if c in st.laborers then st.laborers[c] else LaborerRecord(n, c, env.now);
        var session := Session(c, Laborer, n, Some(c));
        Outcome(Success(session), st.(laborers := st.laborers[c := record], session := Some(session)))
  }

  /** Logging in twice with the same details is logging in once: the same
      reply and the same store, whatever the clock says the second time. */
  lemma LoginIdempotent(st: State, name: string, contact: string, passkey: string, e1: Env, e2: Env)
    ensures var once := LoginLabor(st, name, contact, passkey, e1);
            LoginLabor(once.next, name, contact, passkey, e2) == once
  {
    var once := LoginLabor(st, name, contact, passkey, e1);
    if once.value.Success? {
      var c := Trim(contact);
      assert c in once.next.laborers;
      assert !NameClash(once.next, c, Trim(name));
      assert once.next.laborers[c := once.next.laborers[c]] == once.next.laborers;
    }
  }

  /** A successful laborer login passes the laborer gate and fails the
      recruiter one. */
  lemma LoginGrantsLaborerRole(st: State, name: string, contact: string, passkey: string, env: Env)
    requires LoginLabor(st, name, contact, passkey, env).value.Success?
    ensures var out := LoginLabor(st, name, contact, passkey, env);
            && RequireRole(out.next, "laborer") == Success(out.value.value)
            && RequireRole(out.next, "recruiter") == Failure(WrongRole)
            && out.value.value.username == Trim(contact)
  {
  }

  /** Once a contact is registered under a non-empty name, a login under that
      contact with any other trimmed name is refused. */
  lemma RegisteredNameIsPinned(st: State, name: string, contact: string, other: string, env: Env, e2: Env)
    requires LoginLabor(st, name, contact, SharedPasskey, env).value.Success?
    requires other != []
    ensures var next := LoginLabor(st, name, contact, SharedPasskey, env).next;
            var registered := next.laborers[Trim(contact)].name;
            (registered == Trim(name) || registered == [])
            && (registered != [] && Trim(other) != registered ==>
                  LoginLabor(next, other, contact, SharedPasskey, e2).value == Failure(NameMismatch))
  {
  }
}

=== FILE: domain.dfy ===
/** The persisted shape of the job board: jobs with their applicants, the
    single session, the recruiter credential and the laborer registry, plus
    the fixed reply strings and the sources of fresh ids and timestamps. */
module Domain {

  datatype Option<T> = None | Some(value: T)

  /** The `{ ok, ... }` records the storage layer returns: success with a
      payload, or failure with a human-readable reason. */
  datatype Result<T> = Success(value: T) | Failure(error: string)

  /** What a transition hands back to its caller, and the store it leaves. */
  datatype Outcome<T> = Outcome(value: T, next: State)

  // Reply strings, exactly as the storage layer writes them.
  const JobNotFound := "Job not found"
  const MissingDetails := "Missing required details"
  const ContactNotTenDigits := "Contact must be 10 digits"
  const InvalidPasskey := "Invalid passkey"
  const JobFilled := "Job filled"
  const AlreadySignedUp := "You already signed up"
  const MissingNameOrContact := "Missing name or contact"
  const NameMismatch := "Contact already registered with a different name"
  const EmailMismatch := "Email does not match configured recruiter"
  const InvalidPassword := "Invalid password"
  const NoSession := "no_session"
  const WrongRole := "wrong_role"

  /** The passkey every laborer shares. */
  const SharedPasskey := "1234"

  /** JavaScript's `a || b` on strings: the empty string is the only falsy one. */
  function Or(a: string, b: string): string {
    if a != [] then a else b
  }

  /** An ISO-8601 time stamp as `toISOString` writes it; never empty. */
  type Timestamp = s: string | s != [] witness "1970-01-01T00:00:00.000Z"

  predicate IsLowerHex(s: string) {
    forall k :: 0 <= k < |s| ==> ('0' <= s[k] <= '9') || ('a' <= s[k] <= 'f')
  }

  /** A SHA-256 digest written as 64 lower-case hexadecimal digits. */
  type Digest = s: string | |s| == 64 && IsLowerHex(s)
    witness seq(64, _ => '0')

  /** The nondeterminism of one call: the random part of the id generated
      for position `k` and the clock reading it sees. An applicant's id is
      drawn for its position in the list being normalized; a new job's id
      for position 0. */
  datatype Env = Env(idSuffix: nat -> string, now: Timestamp)

  /** `generateId`: the fixed "job_" prefix and a random suffix. */
  function GenerateId(env: Env, k: nat): (id: string)
    ensures id != []
  {
    "job_" + env.idSuffix(k)
  }

  /** The canonical applicant record. Absent or falsy fields read as "". */
  datatype Applicant = Applicant(id: string, name: string, user: string, contact: string, appliedAt: string)

  /** An applicant entry as it may sit in storage: a legacy bare name, a
      (possibly partial) record, or anything else. */
  datatype StoredApplicant = LegacyName(text: string) | Record(fields: Applicant) | Malformed

  datatype Job = Job(
    id: string,
    title: string,
    description: string,
    pricePerHour: int,
    requiredCount: int,
    createdBy: string,
    applicants: seq<StoredApplicant>,
    createdAt: string,
    location: string,
    startDateTime: string)

  datatype Role = Recruiter | Laborer

  /** The string stored in a session's `role` field. */
  function RoleName(role: Role): string {
    match role
    case Recruiter => "recruiter"
    case Laborer => "laborer"
  }

  datatype Session = Session(username: string, role: Role, name: string, contact: Option<string>)

  /** The recruiter email and password digest, stored under their own keys. */
  datatype Credential = Credential(email: string, passHash: string)

  /** One entry of the laborer registry, keyed by contact. */
  datatype LaborerRecord = LaborerRecord(name: string, contact: string, createdAt: string)

  /** The whole store: the job list in stored order, the current session, the
      recruiter credential and the laborer registry. */
  datatype State = State(
    jobs: seq<Job>,
    session: Option<Session>,
    recruiter: Option<Credential>,
    laborers: map<string, LaborerRecord>)

  /** The fields a recruiter submits for a new job. */
  datatype JobFields = JobFields(
    title: string,
    description: string,
    pricePerHour: int,
    requiredCount: int,
    createdBy: string,
    location: string,
    startDateTime: string)

  /** The details a laborer submits when signing up for a job. */
  datatype ApplyForm = ApplyForm(name: string, contact: string, passkey: string)
}

=== FILE: jobs.dfy ===
/** Looking jobs up by id, `addJob` and the owner-checked `deleteJob`. */
module Jobs {
  import opened Domain
  import opened Text

  /** `findIndex`/`find` by id: the position of the FIRST job with that id. */
  function FindJob(jobs: seq<Job>, id: string): (r: Option<nat>)
    ensures r.Some? ==> r.value < |jobs| && jobs[r.value].id == id
    ensures r.Some? ==> forall k :: 0 <= k < r.value ==> jobs[k].id != id
    ensures r.None? ==> forall k :: 0 <= k < |jobs| ==> jobs[k].id != id
    decreases |jobs|
  {
    if jobs == [] then None
    else if jobs[0].id == id then Some(0)
    else match FindJob(jobs[1..], id)
      case None => None
      case Some(k) => Some(k + 1)
  }

  /** Replacing the found job by one with the same id leaves the lookup where it was. */
  lemma FindJobAfterUpdate(jobs: seq<Job>, id: string, i: nat, job: Job)
    requires FindJob(jobs, id) == Some(i)
    requires job.id == id
    ensures FindJob(jobs[i := job], id) == Some(i)
  {
    assert jobs[i := job][i].id == id;
  }

  function JobIds(jobs: seq<Job>): set<string> {
    set k | 0 <= k < |jobs| :: jobs[k].id
  }

  predicate UniqueIds(jobs: seq<Job>) {
    forall a, b :: 0 <= a < b < |jobs| ==> jobs[a].id != jobs[b].id
  }

  /** `addJob`: a new job with a generated id, trimmed text fields, the
      creator as given, no applicants and the current time, put in FRONT of
      the stored list; nothing else in the store changes. */
  function AddJob(st: State, fields: JobFields, env: Env): (out: Outcome<Job>)
    ensures out.next == st.(jobs := [out.value] + st.jobs)
    ensures out.value.applicants == []
    ensures out.value.id != [] && out.value.createdAt == env.now
    ensures out.value.createdBy == fields.createdBy
    ensures out.value.requiredCount == fields.requiredCount && out.value.pricePerHour == fields.pricePerHour
    ensures out.value.title == Trim(fields.title) && out.value.description == Trim(fields.description)
    ensures out.value.location == Trim(fields.location) && out.value.startDateTime == fields.startDateTime
  {
    var job := Job(GenerateId(env, 0), Trim(fields.title), Trim(fields.description), fields.pricePerHour,
                   fields.requiredCount, fields.createdBy, [], env.now, Trim(fields.location), fields.startDateTime);
    Outcome(job, st.(jobs := [job] + st.jobs))
  }

  /** `deleteJob`: true and the job removed when the first job with the id
      was created by `byUser`; otherwise false and nothing changes. */
  function DeleteJob(st: State, id: string, byUser: string): (out: Outcome<bool>)
    ensures out.value <==> FindJob(st.jobs, id).Some? && st.jobs[FindJob(st.jobs, id).value].createdBy == byUser
    ensures !out.value ==> out.next == st
    ensures out.value ==>
      var i := FindJob(st.jobs, id).value;
      out.next == st.(jobs := st.jobs[..i] + st.jobs[i + 1..])
    ensures |out.next.jobs| == if out.value then |st.jobs| - 1 else |st.jobs|
  {
    match FindJob(st.jobs, id)
    case None => Outcome(false, st)
    case Some(i) =>
      if st.jobs[i].createdBy != byUser then Outcome(false, st)
      else Outcome(true, st.(jobs := st.jobs[..i] + st.jobs[i + 1..]))
  }

  /** Removing position `i` shifts the later jobs down by one. */
  lemma RemoveAtShifts(jobs: seq<Job>, i: nat)
    requires i < |jobs|
    ensures |jobs[..i] + jobs[i + 1..]| == |jobs| - 1
    ensures forall k :: 0 <= k < i ==> (jobs[..i] + jobs[i + 1..])[k] == jobs[k]
    ensures forall k :: i < k < |jobs| ==> (jobs[..i] + jobs[i + 1..])[k - 1] == jobs[k]
  {
  }

  /** With unique ids a successful delete removes exactly the job with that
      id and keeps every other job. */
  lemma DeleteRemovesExactlyThatJob(st: State, id: string, byUser: string)
    requires UniqueIds(st.jobs)
    requires DeleteJob(st, id, byUser).value
    ensures forall j :: j in DeleteJob(st, id, byUser).next.jobs <==> j in st.jobs && j.id != id
  {
    var i := FindJob(st.jobs, id).value;
    var rest := DeleteJob(st, id, byUser).next.jobs;
    RemoveAtShifts(st.jobs, i);
    assert rest == st.jobs[..i] + st.jobs[i + 1..];
    forall j | j in rest
      ensures j in st.jobs && j.id != id
    {
      var k :| 0 <= k < |rest| && rest[k] == j;
      if k < i {
        assert st.jobs[k] == j;
      } else {
        assert st.jobs[k + 1] == j;
      }
    }
    forall j | j in st.jobs && j.id != id
      ensures j in rest
    {
      var k :| 0 <= k < |st.jobs| && st.jobs[k] == j;
      if k < i {
        assert rest[k] == j;
      } else {
        assert rest[k - 1] == j;
      }
    }
  }

  /** Deleting a job just added, as its creator, restores the store. */
  lemma DeleteUndoesAdd(st: State, fields: JobFields, env: Env)
    ensures var added := AddJob(st, fields, env);
            DeleteJob(added.next, added.value.id, fields.createdBy) == Outcome(true, st)
  {
    var added := AddJob(st, fields, env);
    assert FindJob(added.next.jobs, added.value.id) == Some(0);
    assert added.next.jobs[1..] == st.jobs;
  }

  /** A job added under an id not yet in use keeps the ids unique. */
  lemma AddJobKeepsIdsUnique(st: State, fields: JobFields, env: Env)
    requires UniqueIds(st.jobs)
    requires GenerateId(env, 0) !in JobIds(st.jobs)
    ensures UniqueIds(AddJob(st, fields, env).next.jobs)
  {
    var jobs := AddJob(st, fields, env).next.jobs;
    forall a, b | 0 <= a < b < |jobs|
      ensures jobs[a].id != jobs[b].id
    {
      if a == 0 {
        assert jobs[b] == st.jobs[b - 1];
        assert st.jobs[b - 1].id in JobIds(st.jobs);
      } else {
        assert jobs[a] == st.jobs[a - 1] && jobs[b] == st.jobs[b - 1];
      }
    }
  }

  /** Deleting keeps the ids unique. */
  lemma DeleteKeepsIdsUnique(st: State, id: string, byUser: string)
    requires UniqueIds(st.jobs)
    ensures UniqueIds(DeleteJob(st, id, byUser).next.jobs)
  {
    var out := DeleteJob(st, id, byUser);
    if out.value {
      var i := FindJob(st.jobs, id).value;
      var jobs := out.next.jobs;
      forall a, b | 0 <= a < b < |jobs|
        ensures jobs[a].id != jobs[b].id
      {
        var a' := if a < i then a else a + 1;
        var b' := if b < i then b else b + 1;
        assert jobs[a] == st.jobs[a'] && jobs[b] == st.jobs[b'];
      }
    }
  }
}

=== FILE: machine.dfy ===
/** The storage layer as one state machine: every business operation is a
    call, `Step` answers one call and `Run` a sequence of them. The lemmas
    here are the invariants the whole store keeps, whatever the calls. */
module Machine {
  import opened Domain
  import opened Text
  import opened Applicants
  import opened Jobs
  import opened Applying
  import opened Auth
  import opened Views

  /** The business operations of the storage layer, with their arguments;
      the raw getters and setters it also exports are not calls here. */
  datatype Call =
    | PostJob(fields: JobFields)
    | RemoveJob(id: string, byUser: string)
    | SignUp(jobId: string, form: ApplyForm)
    | Withdraw(jobId: string, contact: string)
    | RecruiterSignIn(email: string, password: string)
    | LaborerSignIn(name: string, contact: string, passkey: string)
    | CheckRole(expected: string)
    | SignOut
    | ListOpen
    | ListForRecruiter(username: string)
    | ListForLaborer(username: string)

  /** A call together with the ids and the clock it sees. */
  datatype Request = Request(call: Call, env: Env)

  /** What each operation returns. */
  datatype Reply =
    | Posted(job: Job)
    | Removed(ok: bool)
    | Updated(result: Result<Job>)
    | RecruiterSession(login: Result<RecruiterLogin>)
    | LaborerSession(session: Result<Session>)
    | Gate(access: Result<Session>)
    | SignedOut
    | Listed(jobs: seq<Job>)

  /** The reply reports a refusal. */
  predicate Refused(r: Reply) {
    match r
    case Removed(ok) => !ok
    case Updated(res) => res.Failure?
    case RecruiterSession(res) => res.Failure?
    case LaborerSession(res) => res.Failure?
    case Gate(res) => res.Failure?
    case _ => false
  }

  /** The calls that may write the job list. */
  predicate WritesJobs(c: Call) {
    c.PostJob? || c.RemoveJob? || c.SignUp? || c.Withdraw?
  }

  /** The calls that only read the store. */
  predicate ReadOnly(c: Call) {
    c.CheckRole? || c.ListOpen? || c.ListForRecruiter? || c.ListForLaborer?
  }

  /** `applyToJobWithDetails` with the duplicate check as written, or with
      the corrected one when `corrected` holds. Either way only the job
      list changes, and a refusal changes nothing. */
  function SignUpWith(st: State, jobId: string, form: ApplyForm, env: Env, corrected: bool): (out: Outcome<Result<Job>>)
    ensures out == if corrected then ApplyCorrected(st, jobId, form, env) else Apply(st, jobId, form, env)
    ensures out.next == st.(jobs := out.next.jobs)
    ensures out.value.Failure? ==> out.next == st
  {
    if corrected then ApplyCorrected(st, jobId, form, env) else Apply(st, jobId, form, env)
  }

  /** One call against the store. Sign-ups run the duplicate check as
      written, or the corrected one when `corrected` holds. A refusal and a
      read leave the store as it was; the job list, the credential, the
      registry and the session are each written only by the calls that own
      them. */
  function Step(st: State, call: Call, env: Env, hash: string -> Digest, corrected: bool): (out: Outcome<Reply>)
    ensures Refused(out.value) ==> out.next == st
    ensures ReadOnly(call) ==> out.next == st
    ensures !WritesJobs(call) ==> out.next.jobs == st.jobs
    ensures !call.RecruiterSignIn? ==> out.next.recruiter == st.recruiter
    ensures !call.LaborerSignIn? ==> out.next.laborers == st.laborers
    ensures WritesJobs(call) ==> out.next.session == st.session
    ensures call.SignOut? ==> out.next == st.(session := None)
  {
    match call
    case PostJob(fields) =>
      var r := AddJob(st, fields, env);
      Outcome(Posted(r.value), r.next)
    case RemoveJob(id, byUser) =>
      var r := DeleteJob(st, id, byUser);
      Outcome(Removed(r.value), r.next)
    case SignUp(jobId, form) =>
      var r := SignUpWith(st, jobId, form, env, corrected);
      Outcome(Updated(r.value), r.next)
    case Withdraw(jobId, contact) =>
      var r := Unapply(st, jobId, contact, env);
      Outcome(Updated(r.value), r.next)
    case RecruiterSignIn(email, password) =>
      var r := VerifyOrSetupRecruiter(st, email, password, hash);
      Outcome(RecruiterSession(r.value), r.next)
    case LaborerSignIn(name, contact, passkey) =>
      var r := LoginLabor(st, name, contact, passkey, env);
      Outcome(LaborerSession(r.value), r.next)
    case CheckRole(expected) => Outcome(Gate(RequireRole(st, expected)), st)
    case SignOut => Outcome(SignedOut, st.(session := None))
    case ListOpen => Outcome(Listed(OpenJobs(st, env)), st)
    case ListForRecruiter(username) => Outcome(Listed(JobsForRecruiter(st, username, env)), st)
    case ListForLaborer(username) => Outcome(Listed(JobsForLaborer(st, username, env)), st)
  }

  /** The requests answered in order, with one choice of duplicate check,
      each against the store the previous
      one left. With no job-writing call among them the job list is what it
      was; with no recruiter sign-in the credential is. */
  function Run(st: State, reqs: seq<Request>, hash: string -> Digest, corrected: bool): (out: Outcome<seq<Reply>>)
    ensures |out.value| == |reqs|
    ensures (forall k :: 0 <= k < |reqs| ==> !WritesJobs(reqs[k].call)) ==> out.next.jobs == st.jobs
    ensures (forall k :: 0 <= k < |reqs| ==> !reqs[k].call.RecruiterSignIn?) ==> out.next.recruiter == st.recruiter
    ensures (forall k :: 0 <= k < |reqs| ==> ReadOnly(reqs[k].call)) ==> out.next == st
    decreases |reqs|
  {
    if reqs == [] then Outcome([], st)
    else
      var first := Step(st, reqs[0].call, reqs[0].env, hash, corrected);
      var rest := Run(first.next, reqs[1..], hash, corrected);
      Outcome([first.value] + rest.value, rest.next)
  }

  /** No job has more applicants than it requires, unless it has none at all
      (a job may be posted with a required count of zero or less). */
  predicate WithinCapacity(st: State) {
    forall k :: 0 <= k < |st.jobs| ==>
      |st.jobs[k].applicants| == 0 || |st.jobs[k].applicants| <= st.jobs[k].requiredCount
  }

  /** No job lists the same non-empty contact twice. */
  predicate NoDoubleSignUps(st: State) {
    forall k :: 0 <= k < |st.jobs| ==> DistinctContacts(st.jobs[k].applicants)
  }

  /** Every call keeps the capacity invariant. */
  lemma StepKeepsCapacity(st: State, call: Call, env: Env, hash: string -> Digest, corrected: bool)
    requires WithinCapacity(st)
    ensures WithinCapacity(Step(st, call, env, hash, corrected).next)
  {
    var after := Step(st, call, env, hash, corrected).next;
    match call
    case RemoveJob(id, byUser) =>
      if DeleteJob(st, id, byUser).value {
        var i := FindJob(st.jobs, id).value;
        RemoveAtShifts(st.jobs, i);
        forall k | 0 <= k < |after.jobs|
          ensures |after.jobs[k].applicants| == 0 || |after.jobs[k].applicants| <= after.jobs[k].requiredCount
        {
          if k < i {
            assert after.jobs[k] == st.jobs[k];
          } else {
            assert after.jobs[k] == st.jobs[k + 1];
          }
        }
      }
    case PostJob(fields) =>
      forall k | 0 <= k < |after.jobs|
        ensures |after.jobs[k].applicants| == 0 || |after.jobs[k].applicants| <= after.jobs[k].requiredCount
      {
        if k > 0 {
          assert after.jobs[k] == st.jobs[k - 1];
        }
      }
    case _ =>
  }

  /** With the corrected duplicate check, every call keeps each job's
      contacts distinct; the check as written does not
      (`Applying.UntrimmedContactAdmitsDuplicate`). */
  lemma StepKeepsContactsDistinct(st: State, call: Call, env: Env, hash: string -> Digest, corrected: bool)
    requires corrected
    requires NoDoubleSignUps(st)
    ensures NoDoubleSignUps(Step(st, call, env, hash, corrected).next)
  {
    var after := Step(st, call, env, hash, corrected).next;
    match call
    case RemoveJob(id, byUser) =>
      if DeleteJob(st, id, byUser).value {
        var i := FindJob(st.jobs, id).value;
        RemoveAtShifts(st.jobs, i);
        forall k | 0 <= k < |after.jobs|
          ensures DistinctContacts(after.jobs[k].applicants)
        {
          if k < i {
            assert after.jobs[k] == st.jobs[k];
          } else {
            assert after.jobs[k] == st.jobs[k + 1];
          }
        }
      }
    case PostJob(fields) =>
      forall k | 0 <= k < |after.jobs|
        ensures DistinctContacts(after.jobs[k].applicants)
      {
        if k > 0 {
          assert after.jobs[k] == st.jobs[k - 1];
        }
      }
    case SignUp(jobId, form) =>
      if FindJob(st.jobs, jobId).Some? {
        ApplyCorrectedKeepsContactsDistinct(st, jobId, form, env, FindJob(st.jobs, jobId).value);
      }
    case Withdraw(jobId, contact) =>
      if FindJob(st.jobs, jobId).Some? {
        UnapplyKeepsContactsDistinct(st, jobId, contact, env, FindJob(st.jobs, jobId).value);
      }
    case _ =>
  }

  /** The capacity invariant holds after any sequence of calls. */
  lemma {:induction false} RunKeepsCapacity(st: State, reqs: seq<Request>, hash: string -> Digest, corrected: bool)
    requires WithinCapacity(st)
    ensures WithinCapacity(Run(st, reqs, hash, corrected).next)
    decreases |reqs|
  {
    if reqs != [] {
      StepKeepsCapacity(st, reqs[0].call, reqs[0].env, hash, corrected);
      RunKeepsCapacity(Step(st, reqs[0].call, reqs[0].env, hash, corrected).next, reqs[1..], hash, corrected);
    }
  }

  /** With the corrected duplicate check, no contact signs up twice for a
      job, after any sequence of calls. */
  lemma {:induction false} RunKeepsContactsDistinct(st: State, reqs: seq<Request>, hash: string -> Digest, corrected: bool)
    requires corrected
    requires NoDoubleSignUps(st)
    ensures NoDoubleSignUps(Run(st, reqs, hash, corrected).next)
    decreases |reqs|
  {
    if reqs != [] {
      StepKeepsContactsDistinct(st, reqs[0].call, reqs[0].env, hash, corrected);
      RunKeepsContactsDistinct(Step(st, reqs[0].call, reqs[0].env, hash, corrected).next, reqs[1..], hash, corrected);
    }
  }

  /** Once a password digest is on record, no sequence of calls rewrites
      the recruiter credential. */
  lemma {:induction false} RunKeepsCredential(st: State, reqs: seq<Request>, hash: string -> Digest, corrected: bool)
    requires HashStored(st)
    ensures Run(st, reqs, hash, corrected).next.recruiter == st.recruiter
    decreases |reqs|
  {
    if reqs != [] {
      var first := Step(st, reqs[0].call, reqs[0].env, hash, corrected);
      assert first.next.recruiter == st.recruiter;
      RunKeepsCredential(first.next, reqs[1..], hash, corrected);
    }
  }

  /** First writer wins: the credential a first recruiter sign-in provisions
      is the one on record after any later calls. */
  lemma SetupIsPermanent(st: State, email: string, password: string, env: Env, hash: string -> Digest, corrected: bool, reqs: seq<Request>)
    requires !HashStored(st)
    ensures var first := Step(st, RecruiterSignIn(email, password), env, hash, corrected);
            Run(first.next, reqs, hash, corrected).next.recruiter == Some(Credential(Trim(email), hash(password)))
  {
    var first := Step(st, RecruiterSignIn(email, password), env, hash, corrected);
    assert HashStored(first.next);
    RunKeepsCredential(first.next, reqs, hash, corrected);
  }

  /** A sign-up or withdrawal rewrites one job in place, keeping its id. */
  lemma RewriteKeepsIds(jobs: seq<Job>, i: nat, updated: Job)
    requires i < |jobs| && updated.id == jobs[i].id
    requires UniqueIds(jobs)
    ensures UniqueIds(jobs[i := updated])
  {
    var after := jobs[i := updated];
    forall a, b | 0 <= a < b < |after|
      ensures after[a].id != after[b].id
    {
      assert after[a].id == jobs[a].id && after[b].id == jobs[b].id;
    }
  }

  /** Every call keeps job ids unique, provided a new job's generated id is
      not already in use. */
  lemma StepKeepsIdsUnique(st: State, call: Call, env: Env, hash: string -> Digest, corrected: bool)
    requires UniqueIds(st.jobs)
    requires call.PostJob? ==> GenerateId(env, 0) !in JobIds(st.jobs)
    ensures UniqueIds(Step(st, call, env, hash, corrected).next.jobs)
  {
    match call
    case PostJob(fields) => AddJobKeepsIdsUnique(st, fields, env);
    case RemoveJob(id, byUser) => DeleteKeepsIdsUnique(st, id, byUser);
    case SignUp(jobId, form) =>
      var out := SignUpWith(st, jobId, form, env, corrected);
      if out.value.Success? {
        RewriteKeepsIds(st.jobs, FindJob(st.jobs, jobId).value, out.value.value);
      }
    case Withdraw(jobId, contact) =>
      var out := Unapply(st, jobId, contact, env);
      if out.value.Success? {
        RewriteKeepsIds(st.jobs, FindJob(st.jobs, jobId).value, out.value.value);
      }
    case _ =>
  }

  /** A session opened by a sign-in lasts until the next sign-in or sign-out:
      job calls, role checks and listings keep it. */
  lemma {:induction false} SessionSurvivesOtherCalls(st: State, reqs: seq<Request>, hash: string -> Digest, corrected: bool)
    requires forall k :: 0 <= k < |reqs| ==>
      !(reqs[k].call.RecruiterSignIn? || reqs[k].call.LaborerSignIn? || reqs[k].call.SignOut?)
    ensures Run(st, reqs, hash, corrected).next.session == st.session
    decreases |reqs|
  {
    if reqs != [] {
      var first := Step(st, reqs[0].call, reqs[0].env, hash, corrected);
      assert first.next.session == st.session;
      SessionSurvivesOtherCalls(first.next, reqs[1..], hash, corrected);
    }
  }

  /** A contact's first laborer sign-in succeeds and pins the name; a
      later sign-in under that contact with a name that trims differently is
      refused. */
  lemma SecondNameRefused(st: State, contact: string, first: string, second: string, e1: Env, e2: Env)
    requires IsTenDigits(contact) && contact !in st.laborers
    requires Trim(first) != [] && second != [] && Trim(second) != Trim(first)
    ensures var one := LoginLabor(st, first, contact, SharedPasskey, e1);
            one.value.Success?
            && LoginLabor(one.next, second, contact, SharedPasskey, e2).value == Failure(NameMismatch)
  {
    TenDigitsAreTrimmed(contact);
    var one := LoginLabor(st, first, contact, SharedPasskey, e1);
    assert one.next.laborers[contact].name == Trim(first);
    assert NameClash(one.next, contact, Trim(second));
  }

  /** Scenario: "Ravi" signs in with contact "5550001234"; "Sita" is then
      refused under the same contact. */
  lemma LaborerScenario(st: State, e1: Env, e2: Env)
    requires "5550001234" !in st.laborers
    ensures var first := LoginLabor(st, "Ravi", "5550001234", "1234", e1);
            first.value.Success?
            && LoginLabor(first.next, "Sita", "5550001234", "1234", e2).value == Failure(NameMismatch)
  {
    assert IsTenDigits("5550001234");
    TrimFixesCleanStrings("Ravi");
    TrimFixesCleanStrings("Sita");
    SecondNameRefused(st, "5550001234", "Ravi", "Sita", e1, e2);
  }
}

=== FILE: text.dfy ===
/** String helpers the job-board rules rely on: JavaScript's
    `String.prototype.trim` and the contact pattern `/^\d{10}$/`. */
module Text {

  /** The code points `trim` removes: the WhiteSpace set (tab, vertical tab,
      form feed, space, no-break space, byte order mark and the Zs category)
      and the LineTerminator set (line feed, carriage return, line separator,
      paragraph separator). */
  predicate IsJsWhitespace(c: char) {
    || c == '\t' || c == '\n' || c == '\U{B}' || c == '\U{C}' || c == '\r'
    || c == ' ' || c == '\U{A0}' || c == '\U{1680}'
    || ('\U{2000}' <= c && c <= '\U{200A}')
    || c == '\U{2028}' || c == '\U{2029}' || c == '\U{202F}' || c == '\U{205F}'
    || c == '\U{3000}' || c == '\U{FEFF}'
  }

  /** The first position at or after `i` that does not hold whitespace
      (`|s|` when there is none). */
  function SkipLeading(s: string, i: nat): (j: nat)
    requires i <= |s|
    ensures i <= j <= |s|
    ensures forall k :: i <= k < j ==> IsJsWhitespace(s[k])
    ensures j < |s| ==> !IsJsWhitespace(s[j])
    decreases |s| - i
  {
    if i == |s| || !IsJsWhitespace(s[i]) then i else SkipLeading(s, i + 1)
  }

  /** The position just past the last character of `s[lo..hi]` that is not
      whitespace (`lo` when there is none). */
  function SkipTrailing(s: string, lo: nat, hi: nat): (e: nat)
    requires lo <= hi <= |s|
    ensures lo <= e <= hi
    ensures forall k :: e <= k < hi ==> IsJsWhitespace(s[k])
    ensures lo < e ==> !IsJsWhitespace(s[e - 1])
    decreases hi
  {
    if hi == lo || !IsJsWhitespace(s[hi - 1]) then hi else SkipTrailing(s, lo, hi - 1)
  }

  /** Where the trimmed text starts. */
  function TrimFrom(s: string): nat {
    SkipLeading(s, 0)
  }

  /** Where the trimmed text ends. */
  function TrimTo(s: string): nat {
    SkipTrailing(s, TrimFrom(s), |s|)
  }

  /** JavaScript's `String.prototype.trim`: the infix of `s` left after
      cutting only whitespace from both ends, which neither starts nor ends
      with whitespace. */
  function Trim(s: string): (r: string)
    ensures TrimFrom(s) <= TrimTo(s) <= |s| && |r| == TrimTo(s) - TrimFrom(s)
    ensures forall k :: 0 <= k < TrimFrom(s) ==> IsJsWhitespace(s[k])
    ensures forall k :: TrimTo(s) <= k < |s| ==> IsJsWhitespace(s[k])
    ensures forall k :: 0 <= k < |r| ==> r[k] == s[TrimFrom(s) + k]
    ensures r == [] || (!IsJsWhitespace(r[0]) && !IsJsWhitespace(r[|r| - 1]))
  {
    s[TrimFrom(s)..TrimTo(s)]
  }

  /** `trim` leaves a string unchanged exactly when it has no whitespace at
      either end. */
  lemma TrimFixesCleanStrings(s: string)
    ensures Trim(s) == s <==> (s == [] || (!IsJsWhitespace(s[0]) && !IsJsWhitespace(s[|s| - 1])))
  {
    if s != [] && !IsJsWhitespace(s[0]) && !IsJsWhitespace(s[|s| - 1]) {
      assert TrimFrom(s) == 0;
      assert TrimTo(s) == |s|;
      assert s[0..|s|] == s;
    }
  }

  /** Trimming twice is trimming once. */
  lemma TrimIdempotent(s: string)
    ensures Trim(Trim(s)) == Trim(s)
  {
    TrimFixesCleanStrings(Trim(s));
  }

  predicate IsAsciiDigit(c: char) {
    '0' <= c <= '9'
  }

  /** `/^\d{10}$/`: exactly ten ASCII digits. JavaScript's `\d` is ASCII-only
      and `$` without the `m` flag anchors at the very end of the input. */
  predicate IsTenDigits(s: string) {
    |s| == 10 && forall k :: 0 <= k < |s| ==> IsAsciiDigit(s[k])
  }

  /** A ten-digit contact has no surrounding whitespace, so `trim` keeps it. */
  lemma TenDigitsAreTrimmed(s: string)
    requires IsTenDigits(s)
    ensures Trim(s) == s
  {
    TrimFixesCleanStrings(s);
  }

  /** An executable form of the pattern test, as a left-to-right scan that
      gives up at the first character that is not a digit. The rest of the
      model uses `IsTenDigits`; this scan only shows that a matcher agrees
      with it. */
  method MatchTenDigits(s: string) returns (matched: bool)
    ensures matched <==> IsTenDigits(s)
  {
    if |s| != 10 {
      return false;
    }
    var k := 0;
    while k < |s|
      invariant 0 <= k <= |s|
      invariant forall j :: 0 <= j < k ==> IsAsciiDigit(s[j])
    {
      if !IsAsciiDigit(s[k]) {
        return false;
      }
      k := k + 1;
    }
    return true;
  }
}

=== FILE: views.dfy ===
/** The three read-only listings: `getOpenJobs`, `getJobsForRecruiter` and
    `getJobsForLaborer`. Each one normalizes every stored job's applicants
    (without writing them back) and keeps, in stored order, the jobs that
    meet its criterion. */
module Views {
  import opened Domain
  import opened Text
  import opened Applicants
  import opened Jobs
  import opened Applying

  /** A job as the listings hand it out: every field as stored, the
      applicants normalized. */
  function View(job: Job, env: Env): (v: Job)
    ensures v.(applicants := job.applicants) == job
    ensures |v.applicants| == |job.applicants|
    ensures forall k :: 0 <= k < |job.applicants| ==>
      v.applicants[k] == Record(NormalizeOne(job.applicants[k], env, k))
    ensures forall k :: 0 <= k < |job.applicants| ==>
      && v.applicants[k].Record?
      && StoredContact(v.applicants[k]) == StoredContact(job.applicants[k])
      && StoredUser(v.applicants[k]) == StoredUser(job.applicants[k])
  {
    job.(applicants := Entries(Normalize(job.applicants, env)))
  }

  /** Every stored job as a view, in stored order. */
  function ViewAll(jobs: seq<Job>, env: Env): (r: seq<Job>)
    ensures |r| == |jobs|
    ensures forall k :: 0 <= k < |jobs| ==> r[k] == View(jobs[k], env)
  {
    seq(|jobs|, k requires 0 <= k < |jobs| => View(jobs[k], env))
  }

  /** What a listing keeps. */
  datatype Criterion = Open | CreatedBy(username: string) | Involving(username: string)

  /** Some applicant of the job has `username` as legacy user or as contact. */
  predicate Involves(job: Job, username: string) {
    exists k :: 0 <= k < |job.applicants| &&
      (StoredUser(job.applicants[k]) == username || StoredContact(job.applicants[k]) == username)
  }

  /** The test each listing applies to a (normalized) job. */
  predicate Keeps(c: Criterion, v: Job) {
    match c
    case Open => |v.applicants| < v.requiredCount
    case CreatedBy(username) => v.createdBy == username
    case Involving(username) => Involves(v, username)
  }

  /** The views meeting the criterion, in their order. */
  function Filter(vs: seq<Job>, c: Criterion): (r: seq<Job>)
    ensures |r| <= |vs|
    ensures forall v :: v in r <==> v in vs && Keeps(c, v)
    decreases |vs|
  {
    if vs == [] then []
    else if Keeps(c, vs[0]) then [vs[0]] + Filter(vs[1..], c)
    else Filter(vs[1..], c)
  }

  /** Filtering distributes over concatenation: the listings keep the
      relative order of the stored jobs. */
  lemma {:induction false} FilterAppend(a: seq<Job>, b: seq<Job>, c: Criterion)
    ensures Filter(a + b, c) == Filter(a, c) + Filter(b, c)
    decreases |a|
  {
    if a == [] {
      assert a + b == b;
    } else {
      assert (a + b)[1..] == a[1..] + b;
      FilterAppend(a[1..], b, c);
    }
  }

  /** Normalization changes neither the size of an applicant list nor any
      field the criteria read, so a view is kept exactly when the stored job
      would be. */
  lemma KeepsStored(c: Criterion, job: Job, env: Env)
    ensures Keeps(c, View(job, env)) <==> Keeps(c, job)
  {
    var v := View(job, env);
    if c.Involving? {
      var u := c.username;
      if Involves(job, u) {
        var k :| 0 <= k < |job.applicants| &&
          (StoredUser(job.applicants[k]) == u || StoredContact(job.applicants[k]) == u);
        assert StoredUser(v.applicants[k]) == u || StoredContact(v.applicants[k]) == u;
      }
      if Involves(v, u) {
        var k :| 0 <= k < |v.applicants| &&
          (StoredUser(v.applicants[k]) == u || StoredContact(v.applicants[k]) == u);
        assert StoredUser(job.applicants[k]) == u || StoredContact(job.applicants[k]) == u;
      }
    }
  }

  /** A listing: the views of the stored jobs that meet the criterion. */
  function Listing(st: State, c: Criterion, env: Env): (r: seq<Job>)
    ensures |r| <= |st.jobs|
    ensures forall v :: v in r <==> exists k :: 0 <= k < |st.jobs| && v == View(st.jobs[k], env) && Keeps(c, st.jobs[k])
  {
    var all := ViewAll(st.jobs, env);
    var r := Filter(all, c);
    forall v | v in r
      ensures exists k :: 0 <= k < |st.jobs| && v == View(st.jobs[k], env) && Keeps(c, st.jobs[k])
    {
      var k :| 0 <= k < |all| && all[k] == v;
      KeepsStored(c, st.jobs[k], env);
    }
    forall v | exists k :: 0 <= k < |st.jobs| && v == View(st.jobs[k], env) && Keeps(c, st.jobs[k])
      ensures v in r
    {
      var k :| 0 <= k < |st.jobs| && v == View(st.jobs[k], env) && Keeps(c, st.jobs[k]);
      KeepsStored(c, st.jobs[k], env);
      assert all[k] == v;
    }
    r
  }

  /** A listing of a single stored job holds its view exactly when the
      job meets the criterion. */
  lemma ListingOfOne(st: State, job: Job, c: Criterion, env: Env)
    ensures Listing(st.(jobs := [job]), c, env) == if Keeps(c, job) then [View(job, env)] else []
  {
    var v := View(job, env);
    assert ViewAll([job], env) == [v];
    KeepsStored(c, job, env);
    assert Filter([v], c) == if Keeps(c, v) then [v] else [];
  }

  /** The listing of two runs of stored jobs is the listing of the first
      followed by the listing of the second. With `ListingOfOne` this fixes
      every listing as the kept views in stored order. */
  lemma ListingAppend(st: State, a: seq<Job>, b: seq<Job>, c: Criterion, env: Env)
    ensures Listing(st.(jobs := a + b), c, env) == Listing(st.(jobs := a), c, env) + Listing(st.(jobs := b), c, env)
  {
    assert ViewAll(a + b, env) == ViewAll(a, env) + ViewAll(b, env);
    FilterAppend(ViewAll(a, env), ViewAll(b, env), c);
  }

  /** `getOpenJobs`: the jobs with fewer applicants than they require. */
  function OpenJobs(st: State, env: Env): (r: seq<Job>)
    ensures forall v :: v in r <==>
      exists k :: 0 <= k < |st.jobs| && v == View(st.jobs[k], env) && |st.jobs[k].applicants| < st.jobs[k].requiredCount
    ensures forall v :: v in r ==> |v.applicants| < v.requiredCount
  {
    Listing(st, Open, env)
  }

  /** `getJobsForRecruiter`: the jobs created by `username`. */
  function JobsForRecruiter(st: State, username: string, env: Env): (r: seq<Job>)
    ensures forall v :: v in r <==>
      exists k :: 0 <= k < |st.jobs| && v == View(st.jobs[k], env) && st.jobs[k].createdBy == username
  {
    Listing(st, CreatedBy(username), env)
  }

  /** `getJobsForLaborer`: the jobs with an applicant whose legacy user or
      contact is `username` (a missing user or contact reads as "", so the
      empty username matches any such applicant). */
  function JobsForLaborer(st: State, username: string, env: Env): (r: seq<Job>)
    ensures forall v :: v in r <==>
      exists k :: 0 <= k < |st.jobs| && v == View(st.jobs[k], env) && Involves(st.jobs[k], username)
  {
    Listing(st, Involving(username), env)
  }

  /** A job just added heads every listing that keeps it; the rest of the
      listing is the one before. */
  lemma AddedJobListedFirst(st: State, fields: JobFields, env: Env, c: Criterion, e2: Env)
    ensures var added := AddJob(st, fields, env);
            var v := View(added.value, e2);
            Listing(added.next, c, e2) == (if Keeps(c, v) then [v] else []) + Listing(st, c, e2)
  {
    var added := AddJob(st, fields, env);
    var v := View(added.value, e2);
    assert ViewAll(added.next.jobs, e2) == [v] + ViewAll(st.jobs, e2);
    FilterAppend([v], ViewAll(st.jobs, e2), c);
    assert Filter([v], c) == if Keeps(c, v) then [v] else [];
  }

  /** A new job lists as open exactly when it requires somebody, and it is
      always listed for its creator. */
  lemma AddedJobVisibility(st: State, fields: JobFields, env: Env, e2: Env)
    ensures var added := AddJob(st, fields, env);
            var v := View(added.value, e2);
            && (v in OpenJobs(added.next, e2) <==> fields.requiredCount > 0)
            && JobsForRecruiter(added.next, fields.createdBy, e2)[0] == v
  {
    var added := AddJob(st, fields, env);
    var v := View(added.value, e2);
    AddedJobListedFirst(st, fields, env, CreatedBy(fields.createdBy), e2);
    assert added.next.jobs[0] == added.value;
  }

  /** After a successful sign-up the job is listed for the laborer whose
      username is the trimmed contact, which is how a laborer session is
      named. */
  lemma SignedUpJobListed(st: State, jobId: string, form: ApplyForm, env: Env, e2: Env, i: nat)
    requires FindJob(st.jobs, jobId) == Some(i)
    requires Apply(st, jobId, form, env).value.Success?
    ensures var out := Apply(st, jobId, form, env);
            View(out.next.jobs[i], e2) in JobsForLaborer(out.next, Trim(form.contact), e2)
  {
    var out := Apply(st, jobId, form, env);
    var job := out.next.jobs[i];
    var n := |st.jobs[i].applicants|;
    assert StoredContact(job.applicants[n]) == Trim(form.contact);
    assert Involves(job, Trim(form.contact));
  }

  /** With unique ids, a deleted job is in no listing afterwards. */
  lemma DeletedJobUnlisted(st: State, id: string, byUser: string, c: Criterion, env: Env)
    requires UniqueIds(st.jobs)
    requires DeleteJob(st, id, byUser).value
    ensures forall v :: v in Listing(DeleteJob(st, id, byUser).next, c, env) ==> v.id != id
  {
    var rest := DeleteJob(st, id, byUser).next.jobs;
    DeleteRemovesExactlyThatJob(st, id, byUser);
    forall k | 0 <= k < |rest|
      ensures View(rest[k], env).id != id
    {
      assert rest[k] in rest;
    }
  }
}
